=== FILE: README.md ===
# Band editing for rendered PDF pages

A model of the editing engine of a small browser tool. The tool renders each page of a PDF
into its own canvas. The user drags over a page to insert white space, cut a band out, or
paint a band over in white. Ctrl+Z undoes the last edit. The edited pages are then
re-paginated into fixed-height pages and exported.

The model treats each page canvas as a sequence of pixel rows (`Raster.Page`, a
`seq<Raster.Row>`). A row is opaque, with two distinguished values: `White`, the row a white
`fillRect` paints, and `Blank`, the row read from below the bottom of a canvas.

- `raster.dfy`: rows, pages and the one three-region splice all editors share.
- `bands.dfy`: the four band editors (`insertWhitespace`, `removePdfData`, `coverPdfData`,
  `addPdfData`) as pure splices, with their round trips.
- `history.dfy`: the editor state (pages plus undo history). The source stores each undo
  entry as a closure; here it is a tagged inverse record (`RemoveRows`, `AddRows`,
  `RestoreCover`) that `Apply` interprets. Also `Undo`, and the theorem that `n` edits
  followed by `n` undos restore everything.
- `pagination.dfy`: total height, stacking of the pages into one strip, guideline offsets,
  export page count and slicing, and the round trip of the export.
- `gesture.dfy`: the mouse-up decision (which edit, anchor, length) and the press/release
  state machine.
- `session.dfy`: releases and the undo key acting on the editor.
- `toprow.dfy`: the editors and undo as the code runs them when a band starts on row 0,
  where the prefix read throws.

Three facts about the code shape the model.

- The gesture layer clamps nothing: the anchor and length go to the editors as computed.
  The editors therefore require their band to lie inside the page. `Gesture.DispatchFits`
  shows this always holds for a drag that starts and ends within the page. It uses the
  page's top and height at release time. An undo during a drag (the undo chord also fires
  with the button held) can shrink or move the pressed page and break this, and the code
  then dispatches an unclamped band.
- `pageHeight` is assigned in every page's `getPage` callback (main.js:67-73), right after
  `page.render()` is started and without waiting for it. The page whose `getPage` resolves
  last sets it. Here it is a parameter.
- `loadPdf` (main.js:55-57) empties the canvas list but never the `history` array. Loading
  is outside this model (see below).

The editors of `Bands` and `History` carry out an edit whose band starts on a page's top
row. The code throws there instead; `toprow.dfy` models that behaviour and the Findings
section below records it.

## Model

| member | source | states |
|---|---|---|
| Raster.Splice | main.js:110-118 | The shared resize-and-copy. The prefix `[0,y)` is kept. The band follows it. The old suffix `[y+cut, n)` moves to follow the band. The height becomes `n - cut` plus the band's height. |
| Bands.InsertWhitespace | main.js:107-119 | The page grows by `d`. Rows `[0,y)` are unchanged. Rows `[y,y+d)` are `White`. Old row `i >= y` now sits at `i+d`. |
| Bands.RemovePdfData | main.js:121-134 | The page shrinks by `d`. Rows `[0,y)` are unchanged. Old row `i+d` moves up to `i` for every `i >= y`. |
| Bands.CoverPdfData | main.js:136-155 | The height is unchanged. Rows outside `[y,y+d)` are unchanged. Rows inside it are `White`. |
| Bands.AddPdfData | main.js:157-166 | The page grows by the band's height. The band sits at row `y` onward, in order. The rows after `y` move down past it. |
| Bands.RemoveUndoesInsert | main.js:107-134 | Cutting `[y,y+d)` from the page insertWhitespace produced gives back the original rows exactly. |
| Bands.AddUndoesRemove | main.js:121-166 | Adding back the band captured before a cut, at the cut point, gives back the original rows exactly. |
| Bands.RestoreUndoesCover | main.js:136-166 | The cover undo (remove the white band, add back the captured rows) gives back the original rows. The intermediate page is exactly `d` rows shorter. |
| Bands.RemoveUndoesAdd | main.js:121-166 | The converse round trip. An added band can be read back where it was added. Cutting it again restores the page. |
| Bands.CoverIdempotent | main.js:136-155 | Covering an already covered band changes nothing. |
| History.InsertWhitespace | main.js:107-119 | Only the edited page changes, and it becomes `Bands.InsertWhitespace` of the old page, so it grows by `d`. With saveHistory on, the history gains exactly the entry `RemoveRows(page,y,d)`. With it off, the history is unchanged. |
| History.RemovePdfData | main.js:121-134 | Only the edited page changes, and it becomes `Bands.RemovePdfData` of the old page, so it shrinks by `d`. With saveHistory on, the history gains exactly `AddRows` holding the cut rows. With it off, the history is unchanged. |
| History.CoverPdfData | main.js:136-155 | Only the edited page changes, and it becomes `Bands.CoverPdfData` of the old page, so its height stays. With saveHistory on, the history gains exactly `RestoreCover` holding the covered rows. With it off, the history is unchanged. |
| History.AddPdfData | main.js:157-166 | Only the edited page changes, and it becomes `Bands.AddPdfData` of the old page, so it grows by the band's height. The history is never touched. |
| History.Apply | main.js:108-143 | Replaying any undo entry leaves the history exactly as it was. Only the entry's page changes. |
| History.Undo | main.js:183-188 | With an empty history nothing changes. Otherwise exactly the most recent entry is popped (LIFO) and only its page changes. |
| History.Perform | main.js:91-97 | Only the command's page changes, into the page its editor produces. The history gains exactly the entry that editor records, after all earlier ones. The new entry is replayable. The next undo returns pages and history to their state before the edit. Height changes: `+d` for insert, `-d` for remove, `0` for cover. |
| History.RunEdits | main.js:107-155 | `n` recorded edits append exactly `n` entries after the unchanged old history. They keep every entry replayable. |
| History.UndoTimes | main.js:183-188 | `n` undos pop exactly the top `n` entries, or all of them if there are fewer. Replayability is kept. |
| History.UndoBalancesEdit | main.js:183-185 | An edit followed by an undo leaves the history length unchanged. Undo on an empty history changes nothing. |
| History.UndoAll | main.js:183-188 | `n` recorded edits followed by `n` undos return every page and the history to what they were. |
| Pagination.Stack | main.js:33-38 | The stacked strip is as tall as the sum of the page heights. |
| Pagination.StackAppend | main.js:33-38 | Stacking is compositional: stacking `a + b` is stacking `a`, then `b`. The heights add. |
| Pagination.StackPlacesPage | main.js:34-38 | Page `k` starts in the strip at the sum of the heights of pages `0..k-1`. Its rows appear there in order. |
| Pagination.TotalHeightUpdate | main.js:169-170 | Replacing one page changes the total height by exactly that page's change in height. |
| Pagination.StackPages | main.js:33-38 | The export's drawing loop places page `k` at the running sum of heights above it. It produces the stacked strip. |
| Pagination.UpdatePageGuidelines | main.js:168-181 | There are `floor(T/P)` guidelines: `count*P <= T < (count+1)*P`. Guideline `i` (from 1) is at `i*P + 100`. Offsets strictly increase. Each offset minus 100 is at most `T`. |
| Pagination.ExportPageCount | main.js:41 | `ceil(T/P)`: the smallest page count whose total height covers `T`. |
| Pagination.Export | main.js:30-51 | With no page loaded there is no export. With a page canvas of height 0 there is none either, as drawing it throws (main.js:36). Otherwise there are `ceil(T/P)` output pages, each exactly `P` rows. Row `j` of output page `i` is row `i*P + j` of the stacked strip, or `Blank` past its end. |
| Pagination.StackExportPages | main.js:41-48 | Concatenating the first `m` export pages gives the strip padded with `Blank` to `m*P` rows. |
| Pagination.ExportRoundTrip | main.js:33-48 | When no page is empty, joining the export pages and cutting to `T` rows gives back the stacked strip. Everything after row `T` is `Blank`. The padding is less than one page. |
| Pagination.EditMovesTotalHeight | main.js:168-171 | A recorded edit changes the total height by `+d` (insert), `-d` (remove) or `0` (cover). So a cover leaves the guidelines in place. |
| Gesture.Decide | main.js:83-95 | The release dispatches nothing exactly when it lands on another page than the press or at the press point. Shift selects remove. Failing that, a right-button press selects cover; otherwise insert. Insert anchors at `start - top`. Remove and cover cover exactly the dragged span `[min,max)`. The length is the distance between start and end, and positive. |
| Gesture.DispatchFits | main.js:88-95 | A drag that starts and ends within a page dispatches an edit whose band or insertion point lies inside that page. |
| Gesture.FitsIsValid | main.js:92-96 | A fitting dispatch is a valid command for the editors. |
| Gesture.OnPress | main.js:76-81 | A press remembers its point and page. It asks for cover exactly when the button is 2. |
| Gesture.OnRelease | main.js:82-102 | A release always forgets the press. It dispatches only when the press was on the same page. When it does, the decision is `Decide` on the remembered press. |
| Gesture.StepAsWritten | main.js:76-102 | As the code handles events: input outside every canvas leaves the drag state and dispatches nothing. Only a release on a page dispatches. |
| Gesture.Step | main.js:76-102 | Corrected handling: a release anywhere ends the drag. A press outside the canvases changes nothing. |
| Gesture.StateIsOpenPress | main.js:76-102 | With corrected handling, the drag state is exactly the last page press with no release after it. |
| Gesture.ReleaseUsesOpenPress | main.js:82-102 | With corrected handling, a release on a page dispatches `Decide` on the open press and nothing when no drag is open. |
| Gesture.StaleDragAsWritten | main.js:82-102 | As written, a trace with no open drag still dispatches an insert of 30 rows from a stale press point. |
| Session.Release | main.js:82-102 | The drag state becomes what the release listener leaves (`Gesture.OnRelease`), so the drag ends. At the press point, or on another page than the press, pages and history stay untouched. A dispatched edit changes only the released page, into what the dispatched kind's editor makes of it at the dispatched row and length. The history gains exactly that editor's entry, and the next undo reverts the edit. |
| Session.Handle | main.js:206-214 | The undo key runs `Undo` and leaves the drag alone. A release on a page runs that page's release. Every pointer input moves the drag state exactly as the corrected `Gesture.Step` does, so a page press remembers its point, page and button. Other pointer input leaves the editor alone. Every input keeps the history replayable. |
| TopRow.InsertAsWritten | main.js:107-119 | As written, the entry is pushed first. The editor throws exactly when `y` is 0, and the page then keeps its rows. Otherwise it is the model's insertWhitespace. |
| TopRow.RemoveAsWritten | main.js:121-134 | As written, with recording on an empty band throws before anything is pushed. Otherwise the entry is pushed, and the editor throws at `y = 0` leaving the page. Below row 0 it is the model's removePdfData. |
| TopRow.CoverAsWritten | main.js:136-155 | As written, like remove: an empty recorded band throws before the push, and `y = 0` throws after it, leaving the page. Below row 0 it is the model's coverPdfData. |
| TopRow.AddAsWritten | main.js:157-166 | As written, the call throws exactly at `y = 0` and changes nothing. Otherwise it is the model's addPdfData. |
| TopRow.ApplyAsWritten | main.js:108-143 | Replaying an entry as written throws exactly when the entry is at row 0, and then changes nothing. Otherwise it is `Apply`. |
| TopRow.UndoAsWritten | main.js:183-188 | As written, undo pops the entry even when its closure throws. It throws exactly when the entry is at row 0, and the pages then stay. Otherwise it is `Undo`. |
| TopRow.PerformAsWritten | main.js:89-97 | The dispatched edit as written throws exactly at row 0 or for an empty remove or cover. When it throws the pages stay; otherwise it is `Perform`. |
| TopRow.AgreesBelowTopRow | main.js:107-188 | For a non-empty band below row 0, the edit and its undo as written are exactly the model's `Perform` and `Undo`. |
| TopRow.TopRowEditAsWritten | main.js:107-155 | As written, a non-empty edit at row 0 records the intended entry but leaves every page as it was. The intended insert or remove would change the height. The next undo pops the entry and gives back the editor before the edit. |
| TopRow.TopRowInsertExample | main.js:107-119 | A 3-row insert pressed on row 0 of a 2-row page records an entry and leaves 2 rows as written. The intended insert leaves 5 rows, the top 3 white. |
| TopRow.AsWrittenKeepsPagesNonEmpty | main.js:121-134 | As written, a recorded edit never empties a non-empty page: cutting a whole page starts on row 0 and throws. The intended remove over a whole page leaves an empty canvas. |

## Findings

| source | as written | input that shows it | evidently intended | confidence | as-written member | corrected member |
|---|---|---|---|---|---|---|
| main.js:76-102 | Only page canvases listen for releases. A release outside every canvas leaves `dragStartY` and `dragIdx` set, so the drag stays open. | Press page 0 at y=50. Release outside the canvases. Press outside the canvases. Release on page 0 at y=80 (page top 0). This inserts 30 white rows at row 50, though no drag on the page was open. | Every release ends the drag, as a release on another page already does. An edit comes only from a press and release of one gesture. | medium; not executed | Gesture.StaleDragAsWritten | Gesture.ReleaseUsesOpenPress |
| main.js:107-166 | Every editor reads the rows above its band with `getImageData(0, 0, width, startY)`, which throws for a height of zero. Insert, remove and cover push their undo entry before that read. So an edit starting on row 0 records an entry, leaves the canvas as it was, and skips the guideline refresh and the drag reset (main.js:98-100). Undoing it pops the entry and throws again. | Press on the top row of page 0 (y = 0) and release 3 rows lower. An insert entry is recorded, but the page keeps its height. | The edit happens at row 0 like anywhere else: 3 white rows are inserted, and the next undo cuts them again. | high; not executed | TopRow.TopRowEditAsWritten | History.Perform |

The corrected drag handling is `Gesture.Step`, which `Session.Handle` uses. `Gesture.ReleaseUsesOpenPress` proves the intended property of it.

The editors of `Bands` and `History`, and `History.Perform` with them, carry out the edit at row 0. `Session` uses them. `History.Perform` proves the intended round trip (the next undo gives back the editor) for every valid command, row 0 included. `TopRow.AgreesBelowTopRow` shows the code as written does the same below row 0. `TopRow.TopRowInsertExample` is the concrete input.

## Left out

- File picking, the FileReader, the PDF type check and the alert (main.js:15-27) are browser I/O.
- PDF decoding and asynchronous per-page rendering (main.js:55-73) are a foreign library. `pageHeight` is a positive integer parameter. The code sets it from each page's viewport, which may be fractional. Each `getPage` callback overwrites it, so the page whose callback runs last decides.
- Loading a new document (main.js:55-57) is not modelled. It empties the page list but not the undo history, so entries recorded before a reload address canvases that are no longer shown. The model addresses pages by index, which matches the code only while the page list is unchanged.
- jsPDF output, PNG data URLs, `pdf.save` and the `/1.33` point conversion (main.js:40, 49-52) are a foreign library and floating point. Only the integer slicing is modelled. With pages loaded, a total height of 0 means every page is empty, so the export throws at main.js:36 before jsPDF is reached.
- Pagination.ExportPageCount: computes the exact integer ceiling. The code divides in floating point before `Math.ceil`. The two agree for canvas heights far below 2^53.
- Canvas size limits are not modelled. Browsers cap a canvas's height (commonly at 32,767 rows) and some cap its area lower; past the cap the canvas is unusable. The export stacks the whole document into one canvas (main.js:30-33), and inserts grow page canvases (main.js:114). So for long documents the export does not contain every strip row, although `Pagination.Export` and `Pagination.ExportRoundTrip` say it does.
- Canvas pixel formats, widths and alpha are not modelled. Rows are opaque. The export canvas takes the first page's width. Reads below the bottom of a canvas give the abstract `Blank` row; no claim is made that it is white.
- Cursor visuals, the keydown/keyup colour handling, the unused `isAdding` flag, scroll handling and the context menu (main.js:189-222) are UI only. Of the keyboard handler only the undo chord is kept, as `Session.UndoKey`.
- Creating and removing guideline elements (main.js:172-180) is DOM bookkeeping. The code never empties the `guidelines` array. Only the list of offsets is modelled. The first guideline pass (main.js:224) runs before any page height is known and draws nothing; it is not modelled.
- Conversion from screen to canvas coordinates (`getBoundingClientRect`, `scrollY`, CSS-vs-canvas scaling) is not modelled. Drag points and the page top are integers in one unit.
- Range checking: the code clamps nothing. The editors and `History.Undo` require their band to lie inside the page rather than invent clamping. `Session.Release` requires the dispatched edit to fit its page.
- Pagination.EditMovesTotalHeight: holds for the intended editors. As written, an edit starting on row 0 throws and the total height does not move (see Findings and `TopRow.TopRowEditAsWritten`).
- History.Perform: carries out an edit starting on row 0. The code records the entry and throws there, leaving the page (see Findings).
- History.InsertWhitespace: carries out the insert at row 0. The code pushes the entry and throws there. `TopRow.InsertAsWritten` models the code.
- History.RemovePdfData: carries out the cut at row 0. The code pushes the entry and throws there. `TopRow.RemoveAsWritten` models the code.
- History.CoverPdfData: carries out the cover at row 0. The code pushes the entry and throws there. `TopRow.CoverAsWritten` models the code.
- History.AddPdfData: carries out the add at row 0. The code throws there. `TopRow.AddAsWritten` models the code.
- Bands.InsertWhitespace: the intended splice, row 0 included. The code throws at row 0 (see Findings).
- Bands.RemovePdfData: the intended splice, row 0 included. The code throws at row 0 (see Findings).
- Bands.CoverPdfData: the intended splice, row 0 included. The code throws at row 0 (see Findings).
- Bands.AddPdfData: the intended splice, row 0 included. The code throws at row 0 (see Findings).
- Raster.Splice: the intended copy, row 0 included. The code's prefix read throws for an empty prefix (see Findings).
- Session.Release: uses the intended editors, so a release that dispatches an edit at row 0 edits the page. The code records the entry and throws, which skips the guideline refresh and the reset of `dragStartY` (main.js:98-100). The leftover `dragStartY` is harmless: `dragIdx` is already cleared, so the next release resets it.

=== FILE: bands.dfy ===
/** The four band editors of main.js on a single page canvas, as pure splices.

    Each editor reads a prefix and a suffix, resizes the canvas and writes them back around a
    middle band; here each one is an instance of `Raster.Splice`. Coordinates are not clamped:
    the callers must pass a band inside the page. */
module Bands {
  import opened Raster

  /** insertWhitespace: the page grows by `d` rows, a white band of height `d` appears at `y`,
      and the rows that were at `y` and below move down by `d`. */
  function InsertWhitespace(rows: Page, y: nat, d: nat): (r: Page)
    requires y <= |rows|
    ensures |r| == |rows| + d
    ensures forall i :: 0 <= i < y ==> r[i] == rows[i]
    ensures forall i :: y <= i < y + d ==> r[i] == White
    ensures forall i :: y + d <= i < |r| ==> r[i] == rows[i - d]
  {
    Splice(rows, y, 0, WhiteBand(d))
  }

  /** removePdfData: the band `[y, y + d)` is cut out, the page shrinks by `d` and the rows
      below the band move up to start at `y`. */
  function RemovePdfData(rows: Page, y: nat, d: nat): (r: Page)
    requires y + d <= |rows|
    ensures |r| == |rows| - d
    ensures forall i :: 0 <= i < y ==> r[i] == rows[i]
    ensures forall i :: y <= i < |r| ==> r[i] == rows[i + d]
  {
    Splice(rows, y, d, [])
  }

  /** coverPdfData: the band `[y, y + d)` is painted white; the height and every row outside
      the band stay as they were. */
  function CoverPdfData(rows: Page, y: nat, d: nat): (r: Page)
    requires y + d <= |rows|
    ensures |r| == |rows|
    ensures forall i :: 0 <= i < |rows| && !(y <= i < y + d) ==> r[i] == rows[i]
    ensures forall i :: y <= i < y + d ==> r[i] == White
  {
    Splice(rows, y, d, WhiteBand(d))
  }

  /** addPdfData: the captured rows `band` are spliced in at `y`; the page grows by `|band|`
      and the rows that were at `y` and below move down past the band. */
  function AddPdfData(rows: Page, y: nat, band: Page): (r: Page)
    requires y <= |rows|
    ensures |r| == |rows| + |band|
    ensures forall i :: 0 <= i < y ==> r[i] == rows[i]
    ensures forall i :: y <= i < y + |band| ==> r[i] == band[i - y]
    ensures forall i :: y + |band| <= i < |r| ==> r[i] == rows[i - |band|]
  {
    Splice(rows, y, 0, band)
  }

  /** The undo entry insertWhitespace records, cutting the same band, gives back the page. */
  lemma RemoveUndoesInsert(rows: Page, y: nat, d: nat)
    requires y <= |rows|
    ensures RemovePdfData(InsertWhitespace(rows, y, d), y, d) == rows
  {
  }

  /** The undo entry removePdfData records, adding back the band read before the cut, gives
      back the page. */
  lemma AddUndoesRemove(rows: Page, y: nat, d: nat)
    requires y + d <= |rows|
    ensures AddPdfData(RemovePdfData(rows, y, d), y, Band(rows, y, d)) == rows
  {
  }

  /** The undo entry coverPdfData records (cut the white band, add back the captured rows)
      gives back the page, and the height never changes on the way. */
  lemma RestoreUndoesCover(rows: Page, y: nat, d: nat)
    requires y + d <= |rows|
    ensures |RemovePdfData(CoverPdfData(rows, y, d), y, d)| + d == |rows|
    ensures AddPdfData(RemovePdfData(CoverPdfData(rows, y, d), y, d), y, Band(rows, y, d)) == rows
  {
    assert RemovePdfData(CoverPdfData(rows, y, d), y, d) == RemovePdfData(rows, y, d);
    AddUndoesRemove(rows, y, d);
  }

  /** Adding a band and then cutting as many rows at the same place gives back the page,
      and the band can be read back from where it was added. */
  lemma RemoveUndoesAdd(rows: Page, y: nat, band: Page)
    requires y <= |rows|
    ensures Band(AddPdfData(rows, y, band), y, |band|) == band
    ensures RemovePdfData(AddPdfData(rows, y, band), y, |band|) == rows
  {
  }

  /** Covering a band that is already covered changes nothing. */
  lemma CoverIdempotent(rows: Page, y: nat, d: nat)
    requires y + d <= |rows|
    ensures CoverPdfData(CoverPdfData(rows, y, d), y, d) == CoverPdfData(rows, y, d)
  {
  }
}

=== FILE: gesture.dfy ===
/** Gesture dispatch: which edit a mouse release runs, where and over how many rows.

    A press on a page canvas remembers the press point, the page and whether the right
    button was used; a release on a page canvas decides the edit. Coordinates are document
    pixels (client position plus scroll) and `top` is the document offset of the released
    page's top edge; the conversion from screen to canvas rows is not modelled. */
module Gesture {
  import opened Raster
  import opened History

  datatype Option<T> = None | Some(value: T)

  /** What a release dispatches: nothing, or an edit with its page-local anchor row (as
      computed, so possibly negative) and its length in rows. */
  datatype Dispatch = NoEdit | Edit(kind: Kind, y: int, d: nat)

  function Abs(x: int): nat {
    if x < 0 then -x else x
  }

  function Min(a: int, b: int): int {
    if a <= b then a else b
  }

  /** The decision of the mouse-up handler. A release on another page than the press, or at
      the press point, does nothing. Otherwise shift selects remove, a right-button press
      selects cover and anything else inserts. Insert opens the gap at the press point; remove
      and cover act on exactly the dragged span, whichever way the drag went. */
  function Decide(start: int, end: int, shift: bool, rightButton: bool, samePage: bool, top: int)
    : (r: Dispatch)
    ensures r == NoEdit <==> !samePage || start == end
    ensures r.Edit? ==> r.d > 0 && (r.d == start - end || r.d == end - start)
    ensures r.Edit? ==> (r.kind == Remove <==> shift)
    ensures r.Edit? ==> (r.kind == Cover <==> !shift && rightButton)
    ensures r.Edit? && r.kind == Insert ==> r.y + top == start
    ensures r.Edit? && r.kind != Insert ==>
              r.y + top <= start && r.y + top <= end && r.y + top + r.d == start + end - Min(start, end)
  {
    if !samePage || start == end then NoEdit
    else
      var kind := if shift then Remove else if rightButton then Cover else Insert;
      var anchor := if shift || rightButton then Min(start, end) else start;
      Edit(kind, anchor - top, Abs(start - end))
  }

  /** The edit fits its page: an insertion point inside the page, or a band inside it. */
  predicate Fits(r: Dispatch, height: nat) {
    r.Edit? ==>
      && 0 <= r.y
      && (if r.kind == Insert then r.y <= height else r.y + r.d <= height)
  }

  /** A drag that starts and ends on the same page, between its top and bottom edges, always
      dispatches an edit that fits that page, so the editors' range requirements hold with no
      clamping. */
  lemma DispatchFits(start: int, end: int, shift: bool, rightButton: bool, top: int, height: nat)
    requires top <= start <= top + height && top <= end <= top + height
    ensures Fits(Decide(start, end, shift, rightButton, true, top), height)
  {
  }

  /** The recorded command of a dispatched edit on page `page`. */
  function ToCommand(r: Dispatch, page: nat): (c: Command)
    requires r.Edit? && r.y >= 0
    ensures c.kind == r.kind && c.page == page && c.y == r.y && c.d == r.d
  {
    Command(r.kind, page, r.y, r.d)
  }

  /** A fitting edit is a valid command for its page. */
  lemma FitsIsValid(r: Dispatch, pages: seq<Page>, page: nat)
    requires r.Edit? && page < |pages| && Fits(r, |pages[page]|)
    ensures Valid(pages, ToCommand(r, page))
  {
  }

  /** The drag state main.js keeps in `dragStartY`, `dragIdx` and `whitespaceCover`. */
  datatype DragState = DragState(startY: Option<int>, dragIdx: Option<nat>, cover: bool)

  /** The state before any press. */
  const Idle: DragState := DragState(None, None, false)

  /** Pointer input, as far as the press and release listeners see it. Only page canvases
      carry listeners; a press or release anywhere else reaches none of them. */
  datatype Event =
    | PressOn(page: nat, y: int, button: int)
    | ReleaseOn(page: nat, y: int, shift: bool, top: int)
    | PressElsewhere
    | ReleaseElsewhere

  /** The state after an event and the edit the event dispatches. */
  datatype Outcome = Outcome(state: DragState, dispatch: Dispatch)

  /** The press listener: remember the press point and page; button 2 (the secondary button)
      asks for cover. */
  function OnPress(page: nat, y: int, button: int): (st: DragState)
    ensures st.startY == Some(y) && st.dragIdx == Some(page)
    ensures st.cover <==> button == 2
  {
    DragState(Some(y), Some(page), button == 2)
  }

  /** The release listener of page `page`: decide with the remembered press (none if the
      press was on another page), then forget the press and the page. */
  function OnRelease(st: DragState, page: nat, end: int, shift: bool, top: int): (o: Outcome)
    ensures o.state.startY == None && o.state.dragIdx == None
    ensures o.dispatch.Edit? ==> st.dragIdx == Some(page) && st.startY.Some?
    ensures st.dragIdx == Some(page) && st.startY.Some? ==>
              o.dispatch == Decide(st.startY.value, end, shift, st.cover, true, top)
  {
    var dispatch :=
      if st.dragIdx == Some(page) && st.startY.Some?
      then Decide(st.startY.value, end, shift, st.cover, true, top)
      else NoEdit;
    Outcome(DragState(None, None, st.cover), dispatch)
  }

  /** One event as main.js handles it: a release outside every canvas leaves the remembered
      press in place. */
  function StepAsWritten(st: DragState, ev: Event): (o: Outcome)
    ensures ev.ReleaseElsewhere? || ev.PressElsewhere? ==> o == Outcome(st, NoEdit)
    ensures o.dispatch.Edit? ==> ev.ReleaseOn?
  {
    match ev
    case PressOn(p, y, b) => Outcome(OnPress(p, y, b), NoEdit)
    case ReleaseOn(p, y, shift, top) => OnRelease(st, p, y, shift, top)
    case PressElsewhere => Outcome(st, NoEdit)
    case ReleaseElsewhere => Outcome(st, NoEdit)
  }

  /** One event with the drag ended by every release: a release outside every canvas also
      forgets the remembered press, as a release on another page already does. */
  function Step(st: DragState, ev: Event): (o: Outcome)
    ensures ev.ReleaseElsewhere? ==> o.state.startY == None && o.state.dragIdx == None
    ensures ev.PressElsewhere? ==> o == Outcome(st, NoEdit)
    ensures o.dispatch.Edit? ==> ev.ReleaseOn?
  {
    match ev
    case PressOn(p, y, b) => Outcome(OnPress(p, y, b), NoEdit)
    case ReleaseOn(p, y, shift, top) => OnRelease(st, p, y, shift, top)
    case PressElsewhere => Outcome(st, NoEdit)
    case ReleaseElsewhere => Outcome(DragState(None, None, st.cover), NoEdit)
  }

  /** Events from the start, with main.js's handling; the dispatch is the last event's. */
  function RunAsWritten(evs: seq<Event>): Outcome
  {
    if evs == [] then Outcome(Idle, NoEdit)
    else StepAsWritten(RunAsWritten(evs[..|evs| - 1]).state, evs[|evs| - 1])
  }

  /** Events from the start, with every release ending the drag. */
  function Run(evs: seq<Event>): Outcome
  {
    if evs == [] then Outcome(Idle, NoEdit)
    else Step(Run(evs[..|evs| - 1]).state, evs[|evs| - 1])
  }

  /** A press on a page canvas. */
  datatype Press = Press(page: nat, y: int, button: int)

  /** The press of the drag still in progress after `evs`: the last press on a page canvas
      with no release after it. Presses outside every canvas do not start or end a drag. */
  function OpenPress(evs: seq<Event>): Option<Press>
  {
    if evs == [] then None
    else match evs[|evs| - 1]
      case PressOn(p, y, b) => Some(Press(p, y, b))
      case PressElsewhere => OpenPress(evs[..|evs| - 1])
      case ReleaseOn(_, _, _, _) => None
      case ReleaseElsewhere => None
  }

  /** With every release ending the drag, the drag state is exactly the open press. */
  lemma {:induction false} StateIsOpenPress(evs: seq<Event>)
    ensures OpenPress(evs).None? ==>
              Run(evs).state.startY == None && Run(evs).state.dragIdx == None
    ensures OpenPress(evs).Some? ==>
              var pr := OpenPress(evs).value;
              Run(evs).state == DragState(Some(pr.y), Some(pr.page), pr.button == 2)
  {
    if evs != [] {
      StateIsOpenPress(evs[..|evs| - 1]);
    }
  }

  /** With every release ending the drag, a release on a page dispatches exactly what the
      drag from the open press to the release point asks for, and nothing when no drag is
      open: every edit comes from a press and release of one and the same gesture. */
  lemma ReleaseUsesOpenPress(evs: seq<Event>, page: nat, end: int, shift: bool, top: int)
    ensures Run(evs + [ReleaseOn(page, end, shift, top)]).dispatch ==
              match OpenPress(evs)
              case None => NoEdit
              case Some(pr) => Decide(pr.y, end, shift, pr.button == 2, pr.page == page, top)
  {
    assert (evs + [ReleaseOn(page, end, shift, top)])[..|evs|] == evs;
    StateIsOpenPress(evs);
  }

  /** As written, a drag released outside every canvas stays open: a later press outside the
      canvases released on the first page inserts 30 white rows at the stale press point,
      though no drag was open. */
  lemma StaleDragAsWritten()
    ensures var evs := [PressOn(0, 50, 0), ReleaseElsewhere, PressElsewhere];
            && OpenPress(evs) == None
            && RunAsWritten(evs + [ReleaseOn(0, 80, false, 0)]).dispatch == Edit(Insert, 50, 30)
  {
    var e1 := [PressOn(0, 50, 0)];
    var e2 := e1 + [ReleaseElsewhere];
    var evs := e2 + [PressElsewhere];
    var all := evs + [ReleaseOn(0, 80, false, 0)];
    assert e1[..0] == [] && e2[..1] == e1 && evs[..2] == e2 && all[..3] == evs;
    var pressed := DragState(Some(50), Some(0), false);
    assert RunAsWritten(e1).state == pressed;
    assert RunAsWritten(e2).state == pressed;
    assert RunAsWritten(evs).state == pressed;
    assert [PressOn(0, 50, 0), ReleaseElsewhere, PressElsewhere] == evs;
  }
}

=== FILE: history.dfy ===
/** The editor state: every page canvas plus the undo history.

    main.js keeps the page contexts in `ctxs` and pushes one closure per user edit onto
    `history`; each closure replays the inverse of its edit. Here an entry is a tagged record
    naming the page by its index, interpreted by `Apply`. */
module History {
  import opened Raster
  import Bands

  /** An undo entry: the inverse of one recorded edit. */
  datatype Inverse =
    | RemoveRows(page: nat, y: nat, h: nat)
      // recorded by insertWhitespace: cut the inserted band again
    | AddRows(page: nat, y: nat, rows: Page)
      // recorded by removePdfData: add back the rows read before the cut
    | RestoreCover(page: nat, y: nat, h: nat, rows: Page)
      // recorded by coverPdfData: cut the white band, then add back the rows it covered

  /** The pages, in document order, and the history, most recent entry last. */
  datatype Editor = Editor(pages: seq<Page>, history: seq<Inverse>)

  /** The three edits a gesture can ask for. */
  datatype Kind = Insert | Remove | Cover

  /** One user edit: which editor, on which page, at which row and over how many rows. */
  datatype Command = Command(kind: Kind, page: nat, y: nat, d: nat)

  /** The band a command names lies where its editor can work: an insertion point inside the
      page, or a band `[y, y + d)` inside it. */
  predicate Valid(pages: seq<Page>, c: Command) {
    && c.page < |pages|
    && (if c.kind == Insert then c.y <= |pages[c.page]| else c.y + c.d <= |pages[c.page]|)
  }

  /** An undo entry can be replayed on these pages. */
  predicate Applicable(pages: seq<Page>, e: Inverse) {
    && e.page < |pages|
    && match e
       case RemoveRows(_, y, h) => y + h <= |pages[e.page]|
       case AddRows(_, y, _) => y <= |pages[e.page]|
       case RestoreCover(_, y, h, _) => y + h <= |pages[e.page]|
  }

  /** Only page `k` may differ between `s` and `r`, and the page count is the same. */
  predicate OthersUnchanged(s: Editor, r: Editor, k: nat) {
    && |r.pages| == |s.pages|
    && forall j :: 0 <= j < |s.pages| && j != k ==> r.pages[j] == s.pages[j]
  }

  /** The history `r` has after `s`: one more entry exactly when `saveHistory` is set. */
  predicate Recorded(s: Editor, r: Editor, saveHistory: bool, e: Inverse) {
    r.history == if saveHistory then s.history + [e] else s.history
  }

  /** insertWhitespace(ctx, startY, delta, saveHistory) on page `k`. */
  function InsertWhitespace(s: Editor, k: nat, y: nat, d: nat, saveHistory: bool): (r: Editor)
    requires k < |s.pages| && y <= |s.pages[k]|
    ensures OthersUnchanged(s, r, k) && Recorded(s, r, saveHistory, RemoveRows(k, y, d))
    ensures r.pages[k] == Bands.InsertWhitespace(s.pages[k], y, d)
    ensures |r.pages[k]| == |s.pages[k]| + d
  {
    Editor(s.pages[k := Bands.InsertWhitespace(s.pages[k], y, d)],
           if saveHistory then s.history + [RemoveRows(k, y, d)] else s.history)
  }

  /** removePdfData(ctx, startY, delta, saveHistory) on page `k`; the entry it records holds
      the rows it cuts. */
  function RemovePdfData(s: Editor, k: nat, y: nat, d: nat, saveHistory: bool): (r: Editor)
    requires k < |s.pages| && y + d <= |s.pages[k]|
    ensures OthersUnchanged(s, r, k)
    ensures Recorded(s, r, saveHistory, AddRows(k, y, Band(s.pages[k], y, d)))
    ensures r.pages[k] == Bands.RemovePdfData(s.pages[k], y, d)
    ensures |r.pages[k]| == |s.pages[k]| - d
  {
    Editor(s.pages[k := Bands.RemovePdfData(s.pages[k], y, d)],
           if saveHistory then s.history + [AddRows(k, y, Band(s.pages[k], y, d))] else s.history)
  }

  /** coverPdfData(ctx, startY, delta, saveHistory) on page `k`; the entry it records holds
      the rows it paints over. */
  function CoverPdfData(s: Editor, k: nat, y: nat, d: nat, saveHistory: bool): (r: Editor)
    requires k < |s.pages| && y + d <= |s.pages[k]|
    ensures OthersUnchanged(s, r, k)
    ensures Recorded(s, r, saveHistory, RestoreCover(k, y, d, Band(s.pages[k], y, d)))
    ensures r.pages[k] == Bands.CoverPdfData(s.pages[k], y, d)
    ensures |r.pages[k]| == |s.pages[k]|
  {
    Editor(s.pages[k := Bands.CoverPdfData(s.pages[k], y, d)],
           if saveHistory then s.history + [RestoreCover(k, y, d, Band(s.pages[k], y, d))]
           else s.history)
  }

  /** addPdfData(ctx, startY, imageData) on page `k`. It takes no saveHistory flag: it only
      ever replays an undo entry and never records one. */
  function AddPdfData(s: Editor, k: nat, y: nat, band: Page): (r: Editor)
    requires k < |s.pages| && y <= |s.pages[k]|
    ensures OthersUnchanged(s, r, k) && r.history == s.history
    ensures r.pages[k] == Bands.AddPdfData(s.pages[k], y, band)
    ensures |r.pages[k]| == |s.pages[k]| + |band|
  {
    Editor(s.pages[k := Bands.AddPdfData(s.pages[k], y, band)], s.history)
  }

  /** Replays an undo entry, calling the editors with saveHistory off: the history is left
      exactly as it was and only the entry's page changes. */
  function Apply(s: Editor, e: Inverse): (r: Editor)
    requires Applicable(s.pages, e)
    ensures r.history == s.history
    ensures OthersUnchanged(s, r, e.page)
  {
    match e
    case RemoveRows(k, y, h) => RemovePdfData(s, k, y, h, false)
    case AddRows(k, y, rows) => AddPdfData(s, k, y, rows)
    case RestoreCover(k, y, h, rows) => AddPdfData(RemovePdfData(s, k, y, h, false), k, y, rows)
  }

  /** undo: with an empty history nothing happens; otherwise the most recent entry, and only
      it, is popped and replayed. */
  function Undo(s: Editor): (r: Editor)
    requires s.history != [] ==> Applicable(s.pages, s.history[|s.history| - 1])
    ensures s.history == [] ==> r == s
    ensures s.history != [] ==> r.history == s.history[..|s.history| - 1]
    ensures s.history != [] ==> OthersUnchanged(s, r, s.history[|s.history| - 1].page)
  {
    if s.history == [] then s
    else Apply(Editor(s.pages, s.history[..|s.history| - 1]), s.history[|s.history| - 1])
  }

  /** The page a command's editor leaves. */
  function EditPage(p: Page, c: Command): Page
    requires if c.kind == Insert then c.y <= |p| else c.y + c.d <= |p|
  {
    match c.kind
    case Insert => Bands.InsertWhitespace(p, c.y, c.d)
    case Remove => Bands.RemovePdfData(p, c.y, c.d)
    case Cover => Bands.CoverPdfData(p, c.y, c.d)
  }

  /** The undo entry a command's editor pushes when it records: the band to cut again after an
      insert, and the rows read before a cut or a cover. */
  function EntryFor(pages: seq<Page>, c: Command): Inverse
    requires Valid(pages, c)
  {
    match c.kind
    case Insert => RemoveRows(c.page, c.y, c.d)
    case Remove => AddRows(c.page, c.y, Band(pages[c.page], c.y, c.d))
    case Cover => RestoreCover(c.page, c.y, c.d, Band(pages[c.page], c.y, c.d))
  }

  /** The edit a gesture dispatches, recorded (saveHistory is true at main.js:96). The
      history gains exactly one entry, nothing before it changes, and the next undo returns
      the editor to `s`, pages and history alike. */
  function Perform(s: Editor, c: Command): (r: Editor)
    requires Valid(s.pages, c)
    ensures OthersUnchanged(s, r, c.page)
    ensures r.pages[c.page] == EditPage(s.pages[c.page], c)
    ensures r.history == s.history + [EntryFor(s.pages, c)]
    ensures |r.pages[c.page]| ==
              match c.kind
              case Insert => |s.pages[c.page]| + c.d
              case Remove => |s.pages[c.page]| - c.d
              case Cover => |s.pages[c.page]|
    ensures |r.history| == |s.history| + 1 && r.history[..|s.history|] == s.history
    ensures Applicable(r.pages, r.history[|s.history|])
    ensures Undo(r) == s
  {
    var k, y, d := c.page, c.y, c.d;
    match c.kind
    case Insert =>
      var r := InsertWhitespace(s, k, y, d, true);
      Bands.RemoveUndoesInsert(s.pages[k], y, d);
      assert r.pages[k := s.pages[k]] == s.pages;
      r
    case Remove =>
      var r := RemovePdfData(s, k, y, d, true);
      Bands.AddUndoesRemove(s.pages[k], y, d);
      assert r.pages[k := s.pages[k]] == s.pages;
      r
    case Cover =>
      var r := CoverPdfData(s, k, y, d, true);
      Bands.RestoreUndoesCover(s.pages[k], y, d);
      assert r.pages[k := s.pages[k]] == s.pages;
      r
  }

  /** Every entry of the history can be replayed in turn, most recent first, each on the
      pages the replays above it leave. An editor with an empty history has this property. */
  predicate Replayable(s: Editor)
    decreases |s.history|
  {
    s.history == [] ||
    (Applicable(s.pages, s.history[|s.history| - 1]) && Replayable(Undo(s)))
  }

  /** A run of user edits, the first one performed first. Each command must be valid on the
      pages the commands before it leave. */
  function RunEdits(s: Editor, cmds: seq<Command>): (r: Editor)
    requires AllValid(s, cmds)
    decreases |cmds|, 1
    ensures |r.history| == |s.history| + |cmds| && r.history[..|s.history|] == s.history
    ensures |r.pages| == |s.pages|
    ensures Replayable(s) ==> Replayable(r)
  {
    if cmds == [] then s
    else Perform(RunEdits(s, cmds[..|cmds| - 1]), cmds[|cmds| - 1])
  }

  /** Each command of the run is valid when its turn comes. */
  predicate AllValid(s: Editor, cmds: seq<Command>)
    decreases |cmds|, 0
  {
    cmds == [] ||
    (AllValid(s, cmds[..|cmds| - 1])
     && Valid(RunEdits(s, cmds[..|cmds| - 1]).pages, cmds[|cmds| - 1]))
  }

  /** Pressing undo `n` times. */
  function UndoTimes(s: Editor, n: nat): (r: Editor)
    requires Replayable(s)
    decreases n
    ensures Replayable(r)
    ensures n <= |s.history| ==> r.history == s.history[..|s.history| - n]
    ensures n >= |s.history| ==> r.history == []
  {
    if n == 0 then s else UndoTimes(Undo(s), n - 1)
  }

  /** One recorded edit followed by one undo leaves the history as long as it was, and undo
      on an empty history changes nothing. */
  lemma UndoBalancesEdit(s: Editor, c: Command)
    requires Valid(s.pages, c)
    ensures |Undo(Perform(s, c)).history| == |s.history|
    ensures s.history == [] ==> Undo(s) == s
  {
  }

  /** `n` recorded edits followed by `n` undos give back every page and the history as it
      was before the edits. */
  lemma {:induction false} UndoAll(s: Editor, cmds: seq<Command>)
    requires Replayable(s) && AllValid(s, cmds)
    ensures UndoTimes(RunEdits(s, cmds), |cmds|) == s
    decreases |cmds|
  {
    if cmds != [] {
      var front := cmds[..|cmds| - 1];
      var prior := RunEdits(s, front);
      var after := Perform(prior, cmds[|cmds| - 1]);
      assert RunEdits(s, cmds) == after;
      assert UndoTimes(after, |cmds|) == UndoTimes(Undo(after), |front|);
      UndoAll(s, front);
    }
  }
}

=== FILE: pagination.dfy ===
/** Pagination over the stacked pages: the guideline offsets drawn after every edit and the
    fixed-height slicing of the export.

    Both views concatenate the page canvases top to bottom into one strip whose height is the
    sum of the page heights. `pageHeight` is a positive integer given by the caller. */
module Pagination {
  import opened Raster
  import History

  /** The fixed 100 px main.js adds to each guideline's top. */
  const GuidelineMargin: int := 100

  /** Sum of the page heights, added up from the first page on. */
  function TotalHeight(pages: seq<Page>): nat
  {
    if pages == [] then 0
    else TotalHeight(pages[..|pages| - 1]) + |pages[|pages| - 1]|
  }

  /** The pages drawn one under the other into a single strip. */
  function Stack(pages: seq<Page>): (r: Page)
    ensures |r| == TotalHeight(pages)
  {
    if pages == [] then []
    else Stack(pages[..|pages| - 1]) + pages[|pages| - 1]
  }

  /** One more page of a prefix adds that page below the strip. */
  lemma PrefixStep(pages: seq<Page>, k: nat)
    requires k < |pages|
    ensures Stack(pages[..k + 1]) == Stack(pages[..k]) + pages[k]
    ensures TotalHeight(pages[..k + 1]) == TotalHeight(pages[..k]) + |pages[k]|
  {
    assert pages[..k + 1][..k] == pages[..k];
  }

  /** Stacking two runs of pages is stacking each and joining the strips. */
  lemma {:induction false} StackAppend(a: seq<Page>, b: seq<Page>)
    ensures Stack(a + b) == Stack(a) + Stack(b)
    ensures TotalHeight(a + b) == TotalHeight(a) + TotalHeight(b)
    decreases |b|
  {
    if b == [] {
      assert a + b == a;
    } else {
      var b' := b[..|b| - 1];
      assert (a + b)[..|a + b| - 1] == a + b';
      StackAppend(a, b');
    }
  }

  /** Page `k` is drawn in the strip starting at the sum of the heights of the pages above it,
      and its rows appear there in order. */
  lemma StackPlacesPage(pages: seq<Page>, k: nat)
    requires k < |pages|
    ensures Stack(pages) == Stack(pages[..k]) + pages[k] + Stack(pages[k + 1..])
    ensures forall i :: 0 <= i < |pages[k]| ==>
              Stack(pages)[TotalHeight(pages[..k]) + i] == pages[k][i]
  {
    var above, below := pages[..k], pages[k + 1..];
    assert pages == above + [pages[k]] + below;
    StackAppend(above + [pages[k]], below);
    StackAppend(above, [pages[k]]);
    assert Stack([pages[k]]) == pages[k] by {
      assert [pages[k]][..0] == [];
    }
    IndexMiddle(Stack(above), pages[k], Stack(below));
  }

  /** The middle part of a three-part join is read at the length of the first part onward. */
  lemma IndexMiddle(a: Page, b: Page, c: Page)
    ensures forall i :: 0 <= i < |b| ==> (a + b + c)[|a| + i] == b[i]
  {
  }

  /** Replacing page `k` changes the total height by exactly the change in that page. */
  lemma TotalHeightUpdate(pages: seq<Page>, k: nat, p: Page)
    requires k < |pages|
    ensures TotalHeight(pages[k := p]) + |pages[k]| == TotalHeight(pages) + |p|
  {
    StackPlacesPage(pages, k);
    StackPlacesPage(pages[k := p], k);
    assert pages[k := p][..k] == pages[..k];
    assert pages[k := p][k + 1..] == pages[k + 1..];
  }

  /** The export's stacking loop: page `k` is drawn at `tops[k]`, the running sum of the
      heights above it, and the strip is as tall as all pages together. */
  method StackPages(pages: seq<Page>) returns (strip: Page, tops: seq<nat>)
    ensures |tops| == |pages| && |strip| == TotalHeight(pages)
    ensures forall k :: 0 <= k < |pages| ==> tops[k] == TotalHeight(pages[..k])
    ensures forall k :: 0 <= k < |pages| ==> tops[k] + |pages[k]| <= |strip|
    ensures forall k, i :: 0 <= k < |pages| && 0 <= i < |pages[k]| ==>
              strip[tops[k] + i] == pages[k][i]
    ensures strip == Stack(pages)
  {
    strip, tops := [], [];
    var y := 0;
    for k := 0 to |pages|
      invariant |tops| == k && y == |strip|
      invariant strip == Stack(pages[..k])
      invariant forall j :: 0 <= j < k ==> tops[j] == TotalHeight(pages[..j])
    {
      PrefixStep(pages, k);
      tops := tops + [y];
      strip := strip + pages[k];
      y := y + |pages[k]|;
    }
    assert pages[..|pages|] == pages;
    forall k | 0 <= k < |pages|
      ensures tops[k] + |pages[k]| <= |strip|
    {
      StackPlacesPage(pages, k);
    }
    forall k, i | 0 <= k < |pages| && 0 <= i < |pages[k]|
      ensures strip[tops[k] + i] == pages[k][i]
    {
      StackPlacesPage(pages, k);
    }
  }

  /** The guideline pass run after every edit and undo: one guideline per whole page that fits
      in the stacked height, guideline `i + 1` at `(i + 1) * pageHeight`, drawn below the
      document margin. */
  method UpdatePageGuidelines(pages: seq<Page>, pageHeight: nat) returns (offsets: seq<int>)
    requires pageHeight > 0
    ensures |offsets| == TotalHeight(pages) / pageHeight
    ensures |offsets| * pageHeight <= TotalHeight(pages) < (|offsets| + 1) * pageHeight
    ensures forall i :: 0 <= i < |offsets| ==> offsets[i] == (i + 1) * pageHeight + GuidelineMargin
    ensures forall i :: 0 <= i < |offsets| ==> offsets[i] - GuidelineMargin <= TotalHeight(pages)
    ensures forall i, j :: 0 <= i < j < |offsets| ==> offsets[i] < offsets[j]
  {
    var total := 0;
    for k := 0 to |pages|
      invariant total == TotalHeight(pages[..k])
    {
      PrefixStep(pages, k);
      total := total + |pages[k]|;
    }
    assert pages[..|pages|] == pages;
    var count := total / pageHeight;
    offsets := [];
    for i := 1 to count + 1
      invariant |offsets| == i - 1
      invariant forall j :: 0 <= j < |offsets| ==> offsets[j] == (j + 1) * pageHeight + GuidelineMargin
    {
      offsets := offsets + [i * pageHeight + GuidelineMargin];
    }
    GuidelineBounds(offsets, total, pageHeight);
  }

  /** Guidelines at `(i + 1) * p` plus the margin, `t / p` of them, lie in increasing order and
      none lies below the stacked height. */
  lemma GuidelineBounds(offsets: seq<int>, t: nat, p: nat)
    requires p > 0 && |offsets| == t / p
    requires forall i :: 0 <= i < |offsets| ==> offsets[i] == (i + 1) * p + GuidelineMargin
    ensures |offsets| * p <= t < (|offsets| + 1) * p
    ensures forall i :: 0 <= i < |offsets| ==> offsets[i] - GuidelineMargin <= t
    ensures forall i, j :: 0 <= i < j < |offsets| ==> offsets[i] < offsets[j]
  {
    FloorBounds(t, p);
    forall i | 0 <= i < |offsets|
      ensures offsets[i] - GuidelineMargin <= t
    {
      MulMonotone(i + 1, |offsets|, p);
    }
    forall i, j | 0 <= i < j < |offsets|
      ensures offsets[i] < offsets[j]
    {
      MulStrict(i + 1, j + 1, p);
    }
  }

  /** Integer division rounds down: `q * p <= t < (q + 1) * p` for `q = t / p`. */
  lemma FloorBounds(t: nat, p: nat)
    requires p > 0
    ensures (t / p) * p <= t < (t / p + 1) * p
  {
  }

  lemma MulMonotone(a: nat, b: nat, p: nat)
    requires a <= b
    ensures a * p <= b * p
  {
  }

  lemma MulStrict(a: nat, b: nat, p: nat)
    requires a < b && p > 0
    ensures a * p < b * p
  {
  }

  /** The export page count, Math.ceil(total / pageHeight): the fewest fixed-height pages
      whose combined height covers the stacked strip. */
  function ExportPageCount(total: nat, pageHeight: nat): (n: nat)
    requires pageHeight > 0
    ensures n * pageHeight >= total
    ensures n > 0 ==> (n - 1) * pageHeight < total
  {
    var n := (total + pageHeight - 1) / pageHeight;
    FloorBounds(total + pageHeight - 1, pageHeight);
    n
  }

  /** Export page `i`: the strip rows `[i * pageHeight, (i + 1) * pageHeight)`, with the rows
      that lie below the bottom of the strip read as `Blank`. */
  function ExportPage(strip: Page, pageHeight: nat, i: nat): (r: Page)
    ensures |r| == pageHeight
    ensures forall j :: 0 <= j < pageHeight ==>
              r[j] == if i * pageHeight + j < |strip| then strip[i * pageHeight + j] else Blank
  {
    seq(pageHeight, j requires 0 <= j => if i * pageHeight + j < |strip| then strip[i * pageHeight + j] else Blank)
  }

  /** The first `m` export pages of a strip. */
  function ExportPages(strip: Page, pageHeight: nat, m: nat): (r: seq<Page>)
    ensures |r| == m
    ensures forall i :: 0 <= i < m ==> r[i] == ExportPage(strip, pageHeight, i)
  {
    seq(m, i requires 0 <= i => ExportPage(strip, pageHeight, i))
  }

  /** The strip cut off, or padded with `Blank` rows, to exactly `n` rows. */
  function Padded(strip: Page, n: nat): (r: Page)
    ensures |r| == n
    ensures forall j :: 0 <= j < n ==> r[j] == if j < |strip| then strip[j] else Blank
  {
    seq(n, j requires 0 <= j => if j < |strip| then strip[j] else Blank)
  }

  /** What the export produces: the output pages in order; nothing when no page is loaded
      (main.js reads the width of the first canvas and fails without one); or nothing when a
      page canvas has no rows (drawing a canvas of height zero throws an `InvalidStateError`
      under the HTML Standard's image usability check). */
  datatype ExportResult = Exported(pages: seq<Page>) | NoPagesLoaded | EmptyPageCanvas

  /** Some page canvas has height zero; a remove over a whole page leaves one. */
  predicate HasEmptyPage(pages: seq<Page>) {
    exists k :: 0 <= k < |pages| && |pages[k]| == 0
  }

  /** The export: stack the pages, then cut the strip into `ExportPageCount` pages of exactly
      `pageHeight` rows each. */
  function Export(pages: seq<Page>, pageHeight: nat): (r: ExportResult)
    requires pageHeight > 0
    ensures r.NoPagesLoaded? <==> pages == []
    ensures r.EmptyPageCanvas? <==> pages != [] && HasEmptyPage(pages)
    ensures r.Exported? ==>
              && |r.pages| == ExportPageCount(TotalHeight(pages), pageHeight)
              && (forall i :: 0 <= i < |r.pages| ==> |r.pages[i]| == pageHeight)
              && (forall i, j :: 0 <= i < |r.pages| && 0 <= j < pageHeight ==>
                    r.pages[i][j] == if i * pageHeight + j < TotalHeight(pages)
                                     then Stack(pages)[i * pageHeight + j] else Blank)
  {
    if pages == [] then NoPagesLoaded
    else if HasEmptyPage(pages) then EmptyPageCanvas
    else
      var strip := Stack(pages);
      var n := ExportPageCount(|strip|, pageHeight);
      Exported(ExportPages(strip, pageHeight, n))
  }

  /** Stacking the first `m` export pages gives the strip padded to `m` whole pages. */
  lemma {:induction false} StackExportPages(strip: Page, pageHeight: nat, m: nat)
    ensures Stack(ExportPages(strip, pageHeight, m)) == Padded(strip, m * pageHeight)
  {
    if m > 0 {
      var all := ExportPages(strip, pageHeight, m);
      assert all[..m - 1] == ExportPages(strip, pageHeight, m - 1);
      StackExportPages(strip, pageHeight, m - 1);
      var lower := Padded(strip, (m - 1) * pageHeight);
      var last := ExportPage(strip, pageHeight, m - 1);
      assert Stack(all) == lower + last;
      assert m * pageHeight == (m - 1) * pageHeight + pageHeight;
      forall j | 0 <= j < m * pageHeight
        ensures (lower + last)[j] == Padded(strip, m * pageHeight)[j]
      {
        if j >= (m - 1) * pageHeight {
          var j' := j - (m - 1) * pageHeight;
          assert (lower + last)[j] == last[j'];
        }
      }
    }
  }

  /** Joining the export pages gives back the stacked strip followed by fewer than one page
      of `Blank` padding: nothing is lost, reordered or duplicated by the slicing. */
  lemma ExportRoundTrip(pages: seq<Page>, pageHeight: nat)
    requires pages != [] && !HasEmptyPage(pages) && pageHeight > 0
    ensures TotalHeight(pages) <= |Stack(Export(pages, pageHeight).pages)|
                               < TotalHeight(pages) + pageHeight
    ensures Stack(Export(pages, pageHeight).pages)[..TotalHeight(pages)] == Stack(pages)
    ensures forall j :: TotalHeight(pages) <= j < |Stack(Export(pages, pageHeight).pages)| ==>
              Stack(Export(pages, pageHeight).pages)[j] == Blank
  {
    var strip := Stack(pages);
    var n := ExportPageCount(|strip|, pageHeight);
    StackExportPages(strip, pageHeight, n);
    var joined := Padded(strip, n * pageHeight);
    assert Stack(Export(pages, pageHeight).pages) == joined;
    CeilBounds(|strip|, pageHeight, n);
    assert joined[..|strip|] == strip;
  }

  /** A page count that covers `t` rows, with one page fewer not covering them, leaves less
      than one page of padding. */
  lemma CeilBounds(t: nat, p: nat, n: nat)
    requires p > 0 && n * p >= t && (n > 0 ==> (n - 1) * p < t)
    ensures t <= n * p < t + p
  {
    if n > 0 {
      assert n * p == (n - 1) * p + p;
    }
  }

  /** How each recorded edit moves the stacked height: insert adds its rows, remove takes
      them away and cover keeps it, so after a cover the guidelines stay where they were. */
  lemma EditMovesTotalHeight(s: History.Editor, c: History.Command)
    requires History.Valid(s.pages, c)
    ensures TotalHeight(History.Perform(s, c).pages) ==
              match c.kind
              case Insert => TotalHeight(s.pages) + c.d
              case Remove => TotalHeight(s.pages) - c.d
              case Cover => TotalHeight(s.pages)
  {
    var r := History.Perform(s, c);
    assert r.pages == s.pages[c.page := r.pages[c.page]];
    TotalHeightUpdate(s.pages, c.page, r.pages[c.page]);
  }
}

=== FILE: raster.dfy ===
/** Pixel rows and page canvases.

    A page canvas is modelled as the sequence of its pixel rows, top to bottom; the length of
    the sequence is the canvas height. The editor never looks inside a row, so a row is an
    opaque value with two distinguished members. */
module Raster {

  /** One pixel row of a canvas.
      - `White` is the row that `fillRect` paints with the "white" fill style;
      - `Blank` is the row that reading a region below the bottom of a canvas yields;
      - `Pixels` is any other row, carried through every edit unchanged. */
  datatype Row = White | Blank | Pixels(rgba: seq<int>)

  /** A page canvas as its rows; `|p|` is the canvas height. */
  type Page = seq<Row>

  /** `n` white rows: the band `fillRect(0, y, width, n)` paints. */
  function WhiteBand(n: nat): (r: Page)
    ensures |r| == n
    ensures forall i :: 0 <= i < n ==> r[i] == White
  {
    seq(n, _ => White)
  }

  /** Rows `[y, y + h)` of a page: what `getImageData(0, y, width, h)` captures when the band
      lies inside the canvas. */
  function Band(rows: Page, y: nat, h: nat): (r: Page)
    requires y + h <= |rows|
    ensures |r| == h
    ensures forall i :: 0 <= i < h ==> r[i] == rows[y + i]
  {
    rows[y..y + h]
  }

  /** The three-region copy every editor performs: the prefix `[0, y)` stays, `band` takes the
      place of the `cut` rows `[y, y + cut)`, and the old suffix `[y + cut, |rows|)` follows the
      band. The canvas is resized to fit exactly. */
  function Splice(rows: Page, y: nat, cut: nat, band: Page): (r: Page)
    requires y + cut <= |rows|
    ensures |r| == |rows| - cut + |band|
    ensures forall i :: 0 <= i < y ==> r[i] == rows[i]
    ensures forall i :: y <= i < y + |band| ==> r[i] == band[i - y]
    ensures forall i :: y + |band| <= i < |r| ==> r[i] == rows[i - |band| + cut]
  {
    rows[..y] + band + rows[y + cut..]
  }

  /** A splice is determined by its three regions: any page of the right height that agrees
      with the prefix, the band and the moved suffix is that splice. */
  lemma SpliceUnique(rows: Page, y: nat, cut: nat, band: Page, r: Page)
    requires y + cut <= |rows|
    requires |r| == |rows| - cut + |band|
    requires forall i :: 0 <= i < y ==> r[i] == rows[i]
    requires forall i :: y <= i < y + |band| ==> r[i] == band[i - y]
    requires forall i :: y + |band| <= i < |r| ==> r[i] == rows[i - |band| + cut]
    ensures r == Splice(rows, y, cut, band)
  {
  }
}

=== FILE: session.dfy ===
/** The editing session: the editor state together with the drag state, driven by pointer
    events and the undo key. A release on a page runs the edit it dispatches on that page,
    with history recording on; the undo key runs `History.Undo`. The guideline pass that
    follows both is a function of the page heights only (`Pagination.UpdatePageGuidelines`). */
module Session {
  import opened History
  import opened Gesture

  datatype Session = Session(editor: Editor, drag: DragState)

  /** Input reaching the session: a pointer event, or the undo chord (Ctrl+Z or Cmd+Z). */
  datatype Input = Pointer(ev: Event) | UndoKey

  /** The release listener of page `page` with its edit: the dispatched edit, if any, is
      performed on that page and recorded; the drag is over either way. A release at the press
      point, or on another page than the press, leaves pages and history untouched; an edit
      is undone by the next undo. */
  function Release(s: Session, page: nat, end: int, shift: bool, top: int): (r: Session)
    requires page < |s.editor.pages|
    requires Fits(OnRelease(s.drag, page, end, shift, top).dispatch, |s.editor.pages[page]|)
    ensures r.drag == OnRelease(s.drag, page, end, shift, top).state
    ensures r.drag.startY == None && r.drag.dragIdx == None
    ensures s.drag.startY == Some(end) || s.drag.dragIdx != Some(page) ==> r.editor == s.editor
    ensures var o := OnRelease(s.drag, page, end, shift, top);
            o.dispatch.Edit? ==>
              var c := Command(o.dispatch.kind, page, o.dispatch.y, o.dispatch.d);
              && OthersUnchanged(s.editor, r.editor, page)
              && r.editor.pages[page] == EditPage(s.editor.pages[page], c)
              && r.editor.history == s.editor.history + [EntryFor(s.editor.pages, c)]
              && Applicable(r.editor.pages, r.editor.history[|s.editor.history|])
              && Undo(r.editor) == s.editor
  {
    var o := OnRelease(s.drag, page, end, shift, top);
    if o.dispatch.Edit? then
      FitsIsValid(o.dispatch, s.editor.pages, page);
      Session(Perform(s.editor, ToCommand(o.dispatch, page)), o.state)
    else Session(s.editor, o.state)
  }

  /** The input can be handled without leaving the editors' ranges: a release dispatches an
      edit that fits its page, and an undo has an entry it can replay (or none at all). */
  predicate Handleable(s: Session, input: Input) {
    match input
    case Pointer(ReleaseOn(page, end, shift, top)) =>
      && page < |s.editor.pages|
      && Fits(OnRelease(s.drag, page, end, shift, top).dispatch, |s.editor.pages[page]|)
    case Pointer(_) => true
    case UndoKey =>
      s.editor.history != [] ==>
        Applicable(s.editor.pages, s.editor.history[|s.editor.history| - 1])
  }

  /** One input. A release on a page runs that page's release listener; other pointer input
      only moves the drag state; the undo key runs `Undo` and leaves the drag alone. */
  function Handle(s: Session, input: Input): (r: Session)
    requires Handleable(s, input)
    ensures input.UndoKey? ==> r.drag == s.drag && r.editor == Undo(s.editor)
    ensures input.Pointer? && input.ev.ReleaseOn? ==>
              var ev := input.ev;
              r == Release(s, ev.page, ev.y, ev.shift, ev.top)
    ensures input.Pointer? ==> r.drag == Step(s.drag, input.ev).state
    ensures input.Pointer? && !input.ev.ReleaseOn? ==> r.editor == s.editor
    ensures Replayable(s.editor) ==> Replayable(r.editor)
  {
    match input
    case UndoKey => Session(Undo(s.editor), s.drag)
    case Pointer(ReleaseOn(page, end, shift, top)) => Release(s, page, end, shift, top)
    case Pointer(ev) => Session(s.editor, Step(s.drag, ev).state)
  }
}

=== FILE: toprow.dfy ===
/** The band editors as main.js runs them, top row included.

    Every editor reads the rows above its band with `getImageData(0, 0, width, y)` before it
    touches the canvas, and the HTML Standard has `getImageData` throw an `IndexSizeError`
    for a region of height zero. So for a band starting at row 0 the prefix read throws:
    insert, remove and cover have pushed their undo entry by then, the canvas keeps its rows
    and height, and nothing after the call runs. Replaying an entry at row 0 throws the same
    way. Remove and cover read the band itself first, so with recording on a band of height
    zero throws before anything is pushed.

    The rest of the model uses the editors of `Bands` and `History`, which carry out the
    edit at row 0 too; the lemmas here say where the two agree and where they part. */
module TopRow {
  import opened Raster
  import opened History
  import Bands

  /** The editor state a call leaves, and whether the call ended by throwing. Effects before
      the throw stay; nothing after it runs. */
  datatype Run = Run(editor: Editor, threw: bool)

  /** insertWhitespace as written: the entry is pushed first, then the prefix read throws at
      row 0. */
  function InsertAsWritten(s: Editor, k: nat, y: nat, d: nat, saveHistory: bool): (r: Run)
    requires k < |s.pages| && y <= |s.pages[k]|
    ensures r.threw <==> y == 0
    ensures Recorded(s, r.editor, saveHistory, RemoveRows(k, y, d))
    ensures r.threw ==> r.editor.pages == s.pages
    ensures !r.threw ==> r.editor == History.InsertWhitespace(s, k, y, d, saveHistory)
  {
    var pushed := if saveHistory then s.history + [RemoveRows(k, y, d)] else s.history;
    if y == 0 then Run(Editor(s.pages, pushed), true)
    else Run(Editor(s.pages[k := Bands.InsertWhitespace(s.pages[k], y, d)], pushed), false)
  }

  /** removePdfData as written: with recording on, the band is read and its entry pushed,
      and a band of height zero throws at that read; then the prefix read throws at row 0.
      With recording off nothing is read before the prefix, so at row 0 the band need not
      lie inside the page. */
  function RemoveAsWritten(s: Editor, k: nat, y: nat, d: nat, saveHistory: bool): (r: Run)
    requires k < |s.pages| && ((y == 0 && !saveHistory) || y + d <= |s.pages[k]|)
    ensures r.threw <==> y == 0 || (saveHistory && d == 0)
    ensures r.threw ==> r.editor.pages == s.pages
    ensures saveHistory && d == 0 ==> r.editor == s
    ensures !(saveHistory && d == 0) && y + d <= |s.pages[k]| ==>
              Recorded(s, r.editor, saveHistory, AddRows(k, y, Band(s.pages[k], y, d)))
    ensures !saveHistory ==> r.editor.history == s.history
    ensures !r.threw ==> r.editor == History.RemovePdfData(s, k, y, d, saveHistory)
  {
    if saveHistory && d == 0 then Run(s, true)
    else
      var pushed := if saveHistory then s.history + [AddRows(k, y, Band(s.pages[k], y, d))]
                    else s.history;
      if y == 0 then Run(Editor(s.pages, pushed), true)
      else Run(Editor(s.pages[k := Bands.RemovePdfData(s.pages[k], y, d)], pushed), false)
  }

  /** coverPdfData as written: like removePdfData, the band read comes first, then the push,
      then the prefix read that throws at row 0. */
  function CoverAsWritten(s: Editor, k: nat, y: nat, d: nat, saveHistory: bool): (r: Run)
    requires k < |s.pages| && y + d <= |s.pages[k]|
    ensures r.threw <==> y == 0 || (saveHistory && d == 0)
    ensures r.threw ==> r.editor.pages == s.pages
    ensures saveHistory && d == 0 ==> r.editor == s
    ensures !(saveHistory && d == 0) ==>
              Recorded(s, r.editor, saveHistory, RestoreCover(k, y, d, Band(s.pages[k], y, d)))
    ensures !r.threw ==> r.editor == History.CoverPdfData(s, k, y, d, saveHistory)
  {
    if saveHistory && d == 0 then Run(s, true)
    else
      var pushed := if saveHistory then s.history + [RestoreCover(k, y, d, Band(s.pages[k], y, d))]
                    else s.history;
      if y == 0 then Run(Editor(s.pages, pushed), true)
      else Run(Editor(s.pages[k := Bands.CoverPdfData(s.pages[k], y, d)], pushed), false)
  }

  /** addPdfData as written: it records nothing, and its prefix read throws at row 0. */
  function AddAsWritten(s: Editor, k: nat, y: nat, band: Page): (r: Run)
    requires k < |s.pages| && y <= |s.pages[k]|
    ensures r.threw <==> y == 0
    ensures r.threw ==> r.editor == s
    ensures !r.threw ==> r.editor == History.AddPdfData(s, k, y, band)
  {
    if y == 0 then Run(s, true)
    else Run(Editor(s.pages[k := Bands.AddPdfData(s.pages[k], y, band)], s.history), false)
  }

  /** An entry can be replayed as written: one at row 0 needs only its page, since its replay
      throws before reading anything else. */
  predicate ReplaysAsWritten(pages: seq<Page>, e: Inverse) {
    e.page < |pages| && (e.y == 0 || Applicable(pages, e))
  }

  /** An undo closure as written. The cover entry's closure stops at its first call when
      that call throws. */
  function ApplyAsWritten(s: Editor, e: Inverse): (r: Run)
    requires ReplaysAsWritten(s.pages, e)
    ensures r.threw <==> e.y == 0
    ensures r.threw ==> r.editor == s
    ensures !r.threw ==> r.editor == Apply(s, e)
  {
    match e
    case RemoveRows(k, y, h) => RemoveAsWritten(s, k, y, h, false)
    case AddRows(k, y, rows) => AddAsWritten(s, k, y, rows)
    case RestoreCover(k, y, h, rows) =>
      var cut := RemoveAsWritten(s, k, y, h, false);
      if cut.threw then cut else AddAsWritten(cut.editor, k, y, rows)
  }

  /** undo as written: the entry is popped before its closure runs, so a closure that throws
      still costs the entry. */
  function UndoAsWritten(s: Editor): (r: Run)
    requires s.history != [] ==> ReplaysAsWritten(s.pages, s.history[|s.history| - 1])
    ensures s.history == [] ==> r == Run(s, false)
    ensures s.history != [] ==> r.editor.history == s.history[..|s.history| - 1]
    ensures s.history != [] ==> (r.threw <==> s.history[|s.history| - 1].y == 0)
    ensures r.threw ==> r.editor.pages == s.pages
    ensures !r.threw ==> r.editor == Undo(s)
  {
    if s.history == [] then Run(s, false)
    else ApplyAsWritten(Editor(s.pages, s.history[..|s.history| - 1]), s.history[|s.history| - 1])
  }

  /** The dispatched edit as the release listener runs it, recording on. */
  function PerformAsWritten(s: Editor, c: Command): (r: Run)
    requires Valid(s.pages, c)
    ensures r.threw <==> c.y == 0 || (c.kind != Insert && c.d == 0)
    ensures r.threw ==> r.editor.pages == s.pages
    ensures !r.threw ==> r.editor == Perform(s, c)
  {
    match c.kind
    case Insert => InsertAsWritten(s, c.page, c.y, c.d, true)
    case Remove => RemoveAsWritten(s, c.page, c.y, c.d, true)
    case Cover => CoverAsWritten(s, c.page, c.y, c.d, true)
  }

  /** Away from the top row, and for any band a gesture can dispatch (it is never empty), the
      editors as written are exactly the model's editors. */
  lemma AgreesBelowTopRow(s: Editor, c: Command)
    requires Valid(s.pages, c) && c.y > 0 && c.d > 0
    ensures PerformAsWritten(s, c) == Run(Perform(s, c), false)
    ensures UndoAsWritten(Perform(s, c)) == Run(s, false)
  {
  }

  /** As written, an edit whose band starts on the top row pushes the very entry the intended
      edit records and then throws, so the page keeps its rows, where the intended insert or
      remove changes the page's height by `d`. The next undo pops that entry and throws in
      turn, giving back the editor as it was before the edit. */
  lemma TopRowEditAsWritten(s: Editor, c: Command)
    requires Valid(s.pages, c) && c.y == 0 && c.d > 0
    ensures PerformAsWritten(s, c) == Run(Editor(s.pages, Perform(s, c).history), true)
    ensures c.kind != Cover ==> |Perform(s, c).pages[c.page]| != |s.pages[c.page]|
    ensures UndoAsWritten(PerformAsWritten(s, c).editor) == Run(s, true)
  {
  }

  /** The concrete case: pressing on the top row of a two-row page and releasing three rows
      lower records an entry, yet the page keeps its two rows, where the intended insert
      leaves five, the top three white. */
  lemma TopRowInsertExample()
    ensures var s := Editor([[Pixels([1]), Pixels([2])]], []);
            var c := Command(Insert, 0, 0, 3);
            && PerformAsWritten(s, c) == Run(Editor(s.pages, [RemoveRows(0, 0, 3)]), true)
            && Perform(s, c).pages == [[White, White, White, Pixels([1]), Pixels([2])]]
  {
    var s := Editor([[Pixels([1]), Pixels([2])]], []);
    var c := Command(Insert, 0, 0, 3);
    var p := Perform(s, c).pages[0];
    assert |p| == 5 && p[0] == White && p[1] == White && p[2] == White;
    assert p[3] == Pixels([1]) && p[4] == Pixels([2]);
    assert p == [White, White, White, Pixels([1]), Pixels([2])];
    assert Perform(s, c).pages == [p];
    assert PerformAsWritten(s, c) == Run(Editor(s.pages, [RemoveRows(0, 0, 3)]), true);
  }

  /** As written, a recorded edit never leaves a page canvas empty: a remove that would cut a
      whole page starts on row 0 and throws. The intended remove over a whole page does leave
      an empty canvas, which the export then refuses. */
  lemma AsWrittenKeepsPagesNonEmpty(s: Editor, c: Command)
    requires Valid(s.pages, c) && |s.pages[c.page]| > 0
    ensures |PerformAsWritten(s, c).editor.pages[c.page]| > 0
    ensures c.kind == Remove && c.y == 0 && c.d == |s.pages[c.page]| ==>
              Perform(s, c).pages[c.page] == []
  {
  }
}
